=== FILE: README.md ===
# speech-command-engine in Dafny

A model of the command engine of `speech-command-engine`, a browser library
that turns spoken phrases into page actions. The model has three parts.

- **The command path.** A transcript is matched against the twelve-entry
  command table by first-match `startsWith`. The remainder, trimmed, becomes
  the target. A `switch` on the action then picks at most one effector
  (click, navigate, back, forward, focus, fill, clear, scroll, refresh,
  scroll-to), or a warning. Both handlers are modelled: the current one in
  `src/modules/voiceCommands.ts` and the older one in `src/voiceCommands.ts`.
  Effectors act on an abstract `Page` record holding:
  - the elements, in document order, addressed by their `data-cmd` key;
  - the active element;
  - the scroll offset and page height;
  - the session history and its cursor;
  - a reload counter and a log of clicks.
- **Engine set-up and the result handler.** A configuration becomes engine
  settings (language, continuous, interim results, grammar). A result event
  becomes exactly one dispatch of the last result's best transcript, trimmed
  and lower-cased.
- **The session supervisor.** The two modules that share the engine are
  modelled as one state record. They are:
  - `voiceRecognitionManager.ts`, with `startVoiceRecognition` and
    `stopVoiceRecognition`;
  - `speechRecognition.ts`, with the `onend`/`onerror` handlers and
    `restartRecognition`.

  Each module keeps its own variables in that record, even where the two
  share a name. Events are start/stop requests, engine end and error
  notifications, and timer callbacks. They are applied by pure step
  functions, and the supervisor's invariant is proved over every event
  sequence.

Modules: `Wrappers` (Option, Result), `Text` (trim, lower-case, prefix
test), `Seqs` (first-match search), `Types` (table, union, configuration),
`Parser`, `Processor` (page, effectors, `Effect`, `Apply`), `Dispatch`
(current handler), `Legacy` (older handler), `Recognition` (settings,
`onresult`), `Supervisor`.

**Where the code and its stated design differ, the model follows the code.**
- **No automatic restart.** The code is laid out to restart an ended or
  failed session after one second:
  - `restartDelay` is documented as the delay before restarting
    (`src/modules/speechRecognition.ts:6`);
  - `onend` and `onerror` each schedule `restartRecognition` with it
    (`src/modules/speechRecognition.ts:54-57`, `:64-67`).

  Both schedules sit behind a guard on the recognition module's own
  `speechRecognition` variable. That variable is initialised to `null`
  (`src/modules/speechRecognition.ts:4`) and assigned nowhere in that file,
  so no restart is ever scheduled.
  - The model makes that variable's truthiness the field `armed`.
  - `Supervisor.NoRestartAsWritten` proves that no timer and no restart
    `start()` ever occurs.
  - `restartRecognition`'s own contract is still stated and proved
    (`Supervisor.RestartRecognition`, `Supervisor.RestartNoOverlap`).
- **The older handler's "scroll top" case is dead.** It is declared, but no
  parse can produce that action (`Legacy.ScrollTopUnreachable`).

## Model

| member | source | states |
|---|---|---|
| Types.VoiceEventsMatchTable | src/types/types.ts:1-28 | the `VoiceEvents` union and the `voiceCommands` list name exactly the same strings |
| Types.TableDistinct | src/types/types.ts:15-28 | the command table has exactly 12 entries, pairwise distinct |
| Types.TablePrefixFree | src/types/types.ts:15-28 | no table entry is a prefix of a different entry |
| Types.EntryDiffers | src/types/types.ts:15-28 | for any two distinct entries, the first is not a prefix of the second |
| Types.FirstDifference | src/types/types.ts:15-28 | any two distinct entries, the first no longer than the second, differ at one of positions 0, 1, 2 or 7 |
| Types.TableNormalised | src/types/types.ts:15-28 | every entry is lower-case with no surrounding whitespace, so trim-then-lower-case leaves it unchanged |
| Text.TrimStart | src/modules/voiceCommands.ts:42 | the result is a suffix of the input; what it dropped is all whitespace; it does not start with whitespace |
| Text.TrimEnd | src/modules/voiceCommands.ts:42 | the result is a prefix of the input; what it dropped is all whitespace; it does not end with whitespace |
| Text.Trim | src/modules/voiceCommands.ts:42 | `trim()` yields a string with no whitespace at either end, no longer than the input, and empty exactly when the input is all whitespace |
| Text.TrimSurrounded | src/modules/voiceCommands.ts:42 | trimming whitespace + core + whitespace yields the core, for any trimmed core |
| Text.TrimIdempotent | src/modules/voiceCommands.ts:42 | trimming twice equals trimming once |
| Text.ToLower | src/modules/speechRecognition.ts:45-47 | `toLowerCase()` keeps the length and lower-cases each character in place; the result has no capital letter |
| Text.Normalise | src/modules/speechRecognition.ts:45-47 | the transcript normalisation yields a trimmed lower-case string no longer than the input |
| Text.NormaliseSurrounded | src/modules/speechRecognition.ts:45-47 | for every input, normalisation drops the surrounding whitespace and lower-cases the rest: "  Navigate To Example.com " becomes "navigate to example.com" |
| Text.NormaliseIdempotent | src/modules/speechRecognition.ts:45-47 | normalising twice equals normalising once |
| Text.NormaliseFixed | src/modules/speechRecognition.ts:45-47 | a trimmed lower-case string is unchanged by normalisation |
| Seqs.FirstWhere | src/modules/voiceCommands.ts:39-45 | the first-match loop with `break` returns the least index whose element matches, and none exactly when no element matches |
| Parser.ParseWith | src/modules/voiceCommands.ts:39-45 | the action is the earliest table entry the command starts with; the target is the command after that entry, trimmed; no action exactly when no entry is a prefix |
| Parser.Parse | src/modules/voiceCommands.ts:39-45 | the parse over the declared table fails exactly when no entry prefixes the command; otherwise its action is a table entry the command starts with and its target is the rest, trimmed |
| Parser.MatchUnique | src/modules/voiceCommands.ts:39-45 | a command starts with at most one table entry |
| Parser.ParseCharacterised | src/modules/voiceCommands.ts:39-45 | the parse succeeds exactly when some entry prefixes the command, and then the action is the only entry that does |
| Parser.ParseOfEntry | src/modules/voiceCommands.ts:39-45 | an entry followed by any text parses as that entry, with the trimmed text as target |
| Parser.ParseOrderIrrelevant | src/modules/voiceCommands.ts:39-45 | any reordering of the table parses every command exactly as the declared order does |
| Parser.NormalisedEntryParses | src/modules/speechRecognition.ts:45-48 | every entry survives transcript normalisation and parses as itself with an empty target |
| Parser.NoWordBoundary | src/modules/voiceCommands.ts:40 | "up…" parses as "up" and "back…" as "back" whatever follows, e.g. "update" and "backup" |
| Parser.ParseUnnormalisedFails | src/modules/voiceCommands.ts:40 | the handler does not normalise its input: every command that starts with a blank or a capital letter, such as "  Back" or "Back", matches no entry |
| Processor.Query | src/modules/voiceProcessor.ts:9-11 | the selector lookup finds the first element in document order whose `data-cmd` equals the key, or none when no element carries it |
| Processor.ProcessClickOn | src/modules/voiceProcessor.ts:8-17 | a found element is recorded as clicked and nothing else in the model changes; a missing key only warns, and the page is unchanged |
| Processor.WithScheme | src/modules/voiceProcessor.ts:27-29 | a target with an http:// or https:// scheme (any case) is kept; any other gets "https://" prepended; the result always has an http(s) scheme |
| Processor.HasHttpScheme | src/modules/voiceProcessor.ts:27 | the case-insensitive test for an http:// or https:// scheme at the start of the URL, looking only at its first seven or eight characters |
| Processor.WithSchemeIdempotent | src/modules/voiceProcessor.ts:27-29 | scheme defaulting applied twice equals applying it once |
| Processor.ProcessNavigateTo | src/modules/voiceProcessor.ts:26-31 | `href` becomes the defaulted URL. When that differs from the current URL it is a new history entry after the current one: earlier entries are kept and later ones dropped. When it equals the current URL it replaces the current entry, so the history is unchanged. Nothing else changes |
| Processor.ProcessBack | src/modules/voiceProcessor.ts:38-40 | exactly one step back in history when there is one; nothing else in the model changes |
| Processor.ProcessForward | src/modules/voiceProcessor.ts:47-49 | exactly one step forward in history when there is one; nothing else in the model changes |
| Processor.BackThenForward | src/modules/voiceProcessor.ts:38-49 | forward undoes back |
| Processor.NavigateThenBack | src/modules/voiceProcessor.ts:26-40 | back after navigating to a different URL returns to the previous location; after navigating to the current URL, back behaves as if no navigation had happened |
| Processor.Focus | src/modules/voiceProcessor.ts:63 | `focus()` makes a focusable element the active one and does nothing on any other element |
| Processor.ProcessFocusOn | src/modules/voiceProcessor.ts:58-67 | a found focusable element becomes the active one, a found unfocusable one changes nothing; a missing key only warns, and the page is unchanged |
| Processor.FocusThenFill | src/modules/voiceProcessor.ts:58-92 | focusing a focusable text field and then filling out appends the text to that field's value |
| Processor.ProcessFillOut | src/modules/voiceProcessor.ts:76-92 | a focused INPUT or TEXTAREA gets the text appended to its value; otherwise a focused editable element gets it appended to its text; otherwise a warning with the page unchanged; no other element of the model changes |
| Processor.FillOutTwice | src/modules/voiceProcessor.ts:76-92 | filling a then b equals filling a + b |
| Processor.ProcessClear | src/modules/voiceProcessor.ts:101-110 | the keyed element's value becomes empty and no other element changes; a missing key only warns, and the page is unchanged |
| Processor.ClearIdempotent | src/modules/voiceProcessor.ts:101-110 | clearing twice equals clearing once |
| Processor.ScrollDelta | src/modules/voiceProcessor.ts:125 | "up" scrolls by minus the amount, "down" by plus the amount |
| Processor.ProcessScroll | src/modules/voiceProcessor.ts:120-128 | only the vertical offset changes, by the signed amount |
| Processor.ScrollUpThenDown | src/modules/voiceProcessor.ts:120-128 | scrolling up then down by the same amount leaves the page as it was |
| Processor.ProcessScrollTo | src/modules/voiceProcessor.ts:146-151 | only the vertical offset changes: the requested offset is 0 for top and the page height for bottom |
| Processor.ScrollToForgetsOffset | src/modules/voiceProcessor.ts:146-151 | the result of scrolling to top or bottom does not depend on the previous offset |
| Processor.ProcessRefreshPage | src/modules/voiceProcessor.ts:135-137 | exactly one reload is requested, and location, history, elements and focus are untouched |
| Processor.FocusAndSet | src/voiceCommands.ts:48-58 | the keyed element's value is set to the given text and it becomes active if it is focusable (otherwise the active element stays), with no other element changed; a missing key only warns, and the page is unchanged |
| Processor.Apply | src/modules/voiceCommands.ts:48-99 | every effect keeps the page well-formed; a warning leaves the page unchanged |
| Dispatch.ScrollAmount | src/modules/voiceCommands.ts:33 | the step is the configured amount when present and non-zero, 500 otherwise, and never 0 |
| Dispatch.HandleVoiceCommand | src/modules/voiceCommands.ts:28-100 | one effect per command, which is the unknown-command warning exactly when no table entry prefixes the command |
| Dispatch.ActionEffect | src/modules/voiceCommands.ts:48-99 | the switch yields the unknown-command warning exactly when the action is not a table entry |
| Dispatch.ActionCovered | src/modules/voiceCommands.ts:48-96 | the switch has a non-default case for each of the 12 entries |
| Dispatch.EveryEntryHandled | src/modules/voiceCommands.ts:39-96 | every command that parses reaches an effector |
| Dispatch.HandleOfEntry | src/modules/voiceCommands.ts:39-96 | an entry followed by any text runs that entry's case, with the trimmed text as target and the effective scroll step |
| Dispatch.HandleOfBareEntry | src/modules/voiceCommands.ts:39-96 | a bare entry runs its case with an empty target |
| Dispatch.ActionIgnoresTarget | src/modules/voiceCommands.ts:57-95 | the cases of back, forward, refresh page, up and down do not depend on the target |
| Dispatch.ArgumentlessIgnoreTarget | src/modules/voiceCommands.ts:57-95 | "back to start" only goes back and "refresh page now" only reloads: argument-less commands ignore what follows them |
| Dispatch.ScrollUpEffect | src/modules/voiceCommands.ts:77-79 | "scroll up…" scrolls up by the effective step |
| Dispatch.ScrollDownEffect | src/modules/voiceCommands.ts:81-83 | "scroll down…" scrolls down by the effective step |
| Dispatch.ScrollCommandsSigned | src/modules/voiceCommands.ts:77-83 | applied to a page, "scroll up…" lowers the offset by the effective step and "scroll down…" raises it by the same step |
| Dispatch.UpScrollsToTop | src/modules/voiceCommands.ts:89-91 | "up…", including "update", jumps to the top |
| Dispatch.DownScrollsToBottom | src/modules/voiceCommands.ts:93-95 | "down…" jumps to the bottom |
| Dispatch.NavigateTarget | src/modules/voiceCommands.ts:53-55 | "navigate to X", with X trimmed, navigates to exactly X |
| Dispatch.ClickTarget | src/modules/voiceCommands.ts:49-51 | "click on K", with K trimmed, clicks exactly key K |
| Dispatch.NavigateCommand | src/modules/voiceCommands.ts:53-55 | after "navigate to X", `href` is X when X has an http(s) scheme and "https://" + X otherwise |
| Dispatch.ClickOnMissingKey | src/modules/voiceCommands.ts:49-51 | "click on K" for a key no element carries only warns, and the page is unchanged |
| Legacy.HandleVoiceCommand | src/voiceCommands.ts:5-86 | one effect per command; it is the warning exactly when no entry prefixes the command or the entry has no case |
| Legacy.LegacyActionEffect | src/voiceCommands.ts:22-85 | the older switch yields an effect exactly for "scroll top" and for the table entries other than "scroll up", "up", "down" and "focus on", and the warning otherwise |
| Legacy.LegacyCovers | src/voiceCommands.ts:22-85 | among the table entries, exactly "scroll up", "up", "down" and "focus on" reach the default warning |
| Legacy.LegacyOfEntry | src/voiceCommands.ts:11-17 | the same first-match parse: an entry followed by any text runs that entry's case with the trimmed text |
| Legacy.NoEntryScrollsUp | src/voiceCommands.ts:71-73 | no table entry selects the fixed upward scroll |
| Legacy.ScrollTopUnreachable | src/voiceCommands.ts:71-73 | no command ever takes the "scroll top" case |
| Legacy.ScrollDownEffect | src/voiceCommands.ts:75-77 | "scroll down…" scrolls down by the fixed 100, whatever the configuration |
| Legacy.ScrollDownFixed | src/voiceCommands.ts:75-77 | applied to a page, "scroll down…" raises the offset by exactly 100 |
| Legacy.FillOutWritesSample | src/voiceCommands.ts:48-58 | "fill out K" focuses key K and sets its value to the literal "Sample text", not the spoken text |
| Legacy.AgreesWithCurrent | src/voiceCommands.ts:22-69 | for click on, navigate to, back, forward, clear and refresh page, both handlers produce the same effect |
| Recognition.Resolve | src/modules/speechRecognition.ts:33-37 | language is the configured one if non-empty, else "en-US"; continuous is always true; interim results only when configured true; grammar is the configured one, else the built-in |
| Recognition.ResolveIgnores | src/modules/speechRecognition.ts:33-37 | the configured `continuous`, `scrollAmount` and `autoStart` have no effect on the engine settings |
| Recognition.ResolveRoundTrip | src/modules/speechRecognition.ts:33-37 | a configuration spelling out resolved settings resolves to the same settings |
| Recognition.Initialize | src/modules/speechRecognition.ts:20-41 | fails with the unsupported-browser error when no engine constructor exists, and with the grammar-list error when an engine but no grammar-list constructor exists; otherwise the engine carries the resolved settings |
| Recognition.InitializeRoundTrip | src/modules/speechRecognition.ts:30-41 | initialising again from the settings an engine received yields the same settings |
| Recognition.Transcript | src/modules/speechRecognition.ts:44-47 | the command is the normalised first alternative of the last result; none when that alternative does not exist |
| Recognition.OnResult | src/modules/speechRecognition.ts:43-49 | a result event dispatches exactly once, the normalised transcript with the configuration passed in (the one the handler captured at initialisation) |
| Recognition.OnlyLastBestCounts | src/modules/speechRecognition.ts:43-49 | earlier results and later alternatives of the last result do not influence the dispatch |
| Recognition.PaddedEntryTranscript | src/modules/speechRecognition.ts:45-47 | any capitalisation of an entry, padded with whitespace, normalises to that entry |
| Recognition.SpokenEntryRecognised | src/modules/speechRecognition.ts:43-49 | any capitalisation of an entry, padded with whitespace, dispatches that entry's case and never the warning |
| Recognition.SpokenScrollUp | src/modules/speechRecognition.ts:43-49 | "  Scroll Up  " scrolls up by the effective step |
| Supervisor.StartVoiceRecognition | src/modules/voiceRecognitionManager.ts:15-28 | a no-op while active; when inactive it throws exactly when initialisation throws, with that error; otherwise a new engine becomes current, and unless `autoStart` is false the session becomes active and running with one `start()` issued; no other field changes |
| Supervisor.FailedStartChangesNothing | src/modules/voiceRecognitionManager.ts:18-23 | a start whose initialisation throws leaves the session inactive and changes nothing but the record of errors passed to the caller |
| Supervisor.NoAutoStartReinitialises | src/modules/voiceRecognitionManager.ts:18-26 | with `autoStart` false, two starts create two engines, start none and leave the session inactive |
| Supervisor.StopVoiceRecognition | src/modules/voiceRecognitionManager.ts:35-41 | while active: both manager flags are cleared and one `stop()` is issued to the current engine; otherwise nothing changes |
| Supervisor.OnSessionOver | src/modules/speechRecognition.ts:51-69 | end and error clear the recognition module's running flag, and schedule a 1000 ms restart only when its engine variable is set |
| Supervisor.RestartRecognition | src/modules/speechRecognition.ts:81-91 | no-op while running; otherwise exactly one `start()`, after which the module is running, or, if it throws, not running with exactly one retry scheduled after 1000 ms |
| Supervisor.RestartNoOverlap | src/modules/speechRecognition.ts:81-85 | after a successful restart, further restarts issue no `start()` |
| Supervisor.FireTimer | src/modules/speechRecognition.ts:81-91 | the earliest pending callback leaves the queue and restarts the engine it was scheduled for: while the module is running nothing else happens; otherwise one restart `start()` is issued, and the module is running afterwards, or, if it threw, not running with one retry queued last; no other field changes; with none pending nothing changes |
| Supervisor.InitInv | src/modules/speechRecognition.ts:4-6 | the initial state meets the supervisor invariant, with the restart guard unset |
| Supervisor.StartInv | src/modules/voiceRecognitionManager.ts:15-28 | every start request, successful or failed, keeps the supervisor invariant |
| Supervisor.TimerInv | src/modules/speechRecognition.ts:81-91 | every timer callback keeps the supervisor invariant |
| Supervisor.StepInv | src/modules/voiceRecognitionManager.ts:15-41 | every event keeps the invariant: current engine exists, active implies an engine, timers carry the 1000 ms delay, manager starts = stops + (1 if active), no restarts while unguarded; and no event sets the guard |
| Supervisor.RunInv | src/modules/voiceRecognitionManager.ts:15-41 | the invariant holds after any sequence of events |
| Supervisor.ManagerStartsBounded | src/modules/voiceRecognitionManager.ts:18-39 | over any interleaving of requests and engine events, manager `start()` calls are at most `stop()` calls + 1 |
| Supervisor.NoRestartAsWritten | src/modules/speechRecognition.ts:51-69 | from the initial state, no event sequence schedules a restart timer or issues a restart `start()` |

## Left out

- `src/index.ts` (bootstrap: engine construction, a `DOMContentLoaded` listener, a direct `start()`) is not part of this model. Its trim/lower-case step duplicates the result handler's.
- The speech engine is an opaque event source. Its results, end and error notifications, and whether a `start()` throws, are event parameters.
- The JSGF grammar string is carried verbatim and not parsed.
- Text.Trim: JavaScript's `trim` and `toLowerCase` use Unicode tables. The model uses ASCII whitespace (space, tab, line feed, carriage return, vertical tab, form feed) and ASCII capitals only.
- Text.ToLower: JavaScript's `toLowerCase` maps some characters to more than one (capital I with dot above becomes two code units). The model maps only ASCII capitals, so "keeps the length" holds only under that approximation.
- Processor.Query: the CSS selector is not built or quoted. A key containing a quote, which breaks the real selector, is looked up like any other key.
- Processor.ProcessScroll: smooth-scroll animation and clamping of the offset to the page bounds are not modelled. The offset is an unbounded integer, so up-then-down is exactly net zero.
- Processor.ProcessNavigateTo: real navigation unloads the page. The model records only the new history entry and keeps the page state.
- Processor.ProcessBack: a step back to an entry of another document unloads the page, and the elements, focus and offset become that document's. The model moves only the history cursor and keeps the page state.
- Processor.ProcessForward: a step forward to an entry of another document unloads the page, as for back. The model moves only the history cursor and keeps the page state.
- Processor.ProcessScrollTo: `scrollTo` with smooth behaviour animates, and the browser clamps the offset to the largest scrollable one, which is the page height minus the viewport height. The model has no viewport and sets the requested offset at once.
- Processor.ProcessNavigateTo: "the current URL" is compared as a string. Browsers compare parsed URLs, so "https://example.com" and "https://example.com/" count as equal there but not in the model. Navigating to the current URL also reloads the page, which the model does not represent.
- Processor.ProcessNavigateTo: the `href` setter throws on a URL that does not parse (a bare "navigate to" yields "https://"; a target with a blank puts a space in the host). The model does not parse URLs and records every navigation.
- Processor.ProcessRefreshPage: a reload is recorded as a counter; the page it would reload is not modelled.
- Processor.ProcessClickOn: a click is recorded in a log. The element's click handlers and its activation behaviour are not modelled: a link does not navigate, a submit button does not submit its form, and a checkbox does not toggle.
- Processor.Focus: whether an element is focusable is a per-element flag. What decides it in a browser (tab index, disabled state, visibility) is not modelled.
- Processor.Focus: `focus()` also scrolls the element into view. The page has no geometry, so the model keeps the scroll offset.
- Processor.ProcessFocusOn: goes through `focus()`, so it keeps the scroll offset too, where the browser scrolls the element into view.
- Processor.FocusAndSet: the older handler's `focus()` uses the same per-element focusable flag, with the same limitation.
- Processor.FocusAndSet: its `focus()` also scrolls the element into view; the model keeps the scroll offset.
- Processor.ProcessFillOut: the page is a flat list of elements with no containment. Appending to `textContent` of an editable element replaces all its children with one text node. The descendant elements, keyed ones included, leave the document, and every ancestor's text grows. The model keeps all other elements unchanged and still finds them by key.
- Processor.ProcessFillOut: assigning `value` goes through the browser's value sanitisation. A number or email input rewrites or drops the text, and a file input throws on a non-empty value. The model appends the text verbatim to any INPUT or TEXTAREA.
- Processor.ProcessClear: the model empties the value of any element found by key, even one that is not a form field. The source casts such an element and assigns to a property it does not use.
- Dispatch.ScrollAmount: `scrollAmount` and `scrollHeight` are integers. NaN, which `||` also replaces with 500, and fractional amounts are not modelled.
- Console messages (the unknown-command warning, the effectors' not-found warnings and the older handler's `console.log` lines) are reduced to the `Warn` effect and the `warned` flag, without text.
- Timers are a queue of pending callbacks, each labelled with its delay. All delays are the same 1000 ms, so they fire in scheduling order; wall-clock time is not modelled.
- Supervisor.StartVoiceRecognition: the manager's own `start()` is taken never to throw. Only restarts are modelled with a throwing `start()`.
- Recognition.Transcript: when the result list is empty (`results[-1]` is undefined) or the last result has no alternative, the handler throws before dispatching. The model yields no command in both cases and does not represent the exception.

=== FILE: dispatch.dfy ===
/** The current command handler: parse the command against the table and
    invoke the one effector its action selects, or warn. */
module Dispatch {
  import opened Wrappers
  import opened Text
  import opened Types
  import opened Parser
  import opened Processor

  /** The scroll step used when none (or zero) is configured. */
  const DefaultScrollAmount: int := 500

  /** `config.scrollAmount || 500`: a configured amount counts unless it is
      absent or zero. */
  function ScrollAmount(config: Config): (n: int)
    ensures n != 0
    ensures config.scrollAmount.Some? && config.scrollAmount.value != 0 ==> n == config.scrollAmount.value
    ensures config.scrollAmount.None? || config.scrollAmount.value == 0 ==> n == DefaultScrollAmount
  {
    match config.scrollAmount
    case Some(n) => if n != 0 then n else DefaultScrollAmount
    case None => DefaultScrollAmount
  }

  /** The `switch (action)`; the default branch is the unknown-command warning. */
  function ActionEffect(action: string, target: string, amount: int): (e: Effect)
    ensures e == Warn <==> action !in VoiceCommands
  {
    if action == "click on" then ClickOn(target)
    else if action == "navigate to" then NavigateTo(target)
    else if action == "back" then Back
    else if action == "forward" then Forward
    else if action == "focus on" then FocusOn(target)
    else if action == "fill out" then FillOut(target)
    else if action == "clear" then Clear(target)
    else if action == "scroll up" then Scroll(amount, Up)
    else if action == "scroll down" then Scroll(amount, Down)
    else if action == "refresh page" then RefreshPage
    else if action == "up" then ScrollTo(Top)
    else if action == "down" then ScrollTo(Bottom)
    else Warn
  }

  /** `handleVoiceCommand(command, config)`: exactly one effect, which is the
      warning precisely when no table entry prefixes the command. */
  function HandleVoiceCommand(command: string, config: Config): (e: Effect)
    ensures e == Warn <==> Parse(command).None?
  {
    match Parse(command)
    case None => Warn
    case Some(p) =>
      ActionCovered(p.action, p.target, ScrollAmount(config));
      ActionEffect(p.action, p.target, ScrollAmount(config))
  }

  /** The switch has a case for every table entry. */
  lemma ActionCovered(action: string, target: string, amount: int)
    requires action in VoiceCommands
    ensures ActionEffect(action, target, amount) != Warn
  {
  }

  /** A command made of a table entry and any following text runs that
      entry's case of the switch, with the trimmed text as the target. */
  lemma HandleOfEntry(i: nat, rest: string, command: string, config: Config)
    requires i < |VoiceCommands| && command == VoiceCommands[i] + rest
    ensures HandleVoiceCommand(command, config) == ActionEffect(VoiceCommands[i], Trim(rest), ScrollAmount(config))
  {
    ParseOfEntry(i, rest, command);
  }

  /** The actions whose case takes no target. */
  predicate IsArgumentless(action: string) {
    action in {"back", "forward", "refresh page", "up", "down"}
  }

  lemma ActionIgnoresTarget(action: string, t1: string, t2: string, amount: int)
    requires IsArgumentless(action)
    ensures ActionEffect(action, t1, amount) == ActionEffect(action, t2, amount)
  {
  }

  /** A bare table entry runs its case with an empty target. */
  lemma HandleOfBareEntry(i: nat, config: Config)
    requires i < |VoiceCommands|
    ensures HandleVoiceCommand(VoiceCommands[i], config) == ActionEffect(VoiceCommands[i], "", ScrollAmount(config))
  {
    var bare := VoiceCommands[i];
    assert bare == VoiceCommands[i] + "";
    HandleOfEntry(i, "", bare, config);
    assert Trim("") == "";
  }

  /** The commands without an argument ignore whatever follows them: "back to
      start" only goes back, "refresh page now" only reloads. */
  lemma ArgumentlessIgnoreTarget(i: nat, rest: string, config: Config)
    requires i < |VoiceCommands| && IsArgumentless(VoiceCommands[i])
    ensures HandleVoiceCommand(VoiceCommands[i] + rest, config) == HandleVoiceCommand(VoiceCommands[i], config)
  {
    var c := VoiceCommands[i] + rest;
    HandleOfEntry(i, rest, c, config);
    HandleOfBareEntry(i, config);
    ActionIgnoresTarget(VoiceCommands[i], Trim(rest), "", ScrollAmount(config));
  }

  /** Every successfully parsed command reaches an effector: the switch covers
      the whole table. */
  lemma EveryEntryHandled(command: string, config: Config)
    requires Parse(command).Some?
    ensures HandleVoiceCommand(command, config) != Warn
  {
  }

  /** "scroll up" moves the page up by the effective amount and "scroll down"
      moves it down by the same amount. */
  lemma ScrollCommandsSigned(p: Page, rest: string, config: Config)
    requires Valid(p)
    ensures Apply(p, HandleVoiceCommand("scroll up" + rest, config)).page.scrollY == p.scrollY - ScrollAmount(config)
    ensures Apply(p, HandleVoiceCommand("scroll down" + rest, config)).page.scrollY == p.scrollY + ScrollAmount(config)
  {
    ScrollUpEffect(rest, config);
    ScrollDownEffect(rest, config);
  }

  lemma ScrollUpEffect(rest: string, config: Config)
    ensures HandleVoiceCommand("scroll up" + rest, config) == Scroll(ScrollAmount(config), Up)
  {
    var up := "scroll up" + rest;
    assert VoiceCommands[6] == "scroll up";
    HandleOfEntry(6, rest, up, config);
  }

  lemma ScrollDownEffect(rest: string, config: Config)
    ensures HandleVoiceCommand("scroll down" + rest, config) == Scroll(ScrollAmount(config), Down)
  {
    var down := "scroll down" + rest;
    assert VoiceCommands[7] == "scroll down";
    HandleOfEntry(7, rest, down, config);
  }

  /** "up" and "down" jump to the top and the bottom; with no word boundary,
      "update" jumps to the top too. */
  lemma UpScrollsToTop(rest: string, config: Config)
    ensures HandleVoiceCommand("up" + rest, config) == ScrollTo(Top)
  {
    var c := "up" + rest;
    assert VoiceCommands[9] == "up";
    HandleOfEntry(9, rest, c, config);
  }

  lemma DownScrollsToBottom(rest: string, config: Config)
    ensures HandleVoiceCommand("down" + rest, config) == ScrollTo(Bottom)
  {
    var c := "down" + rest;
    assert VoiceCommands[10] == "down";
    HandleOfEntry(10, rest, c, config);
  }

  lemma TrimAfterBlank(target: string)
    requires IsTrimmed(target)
    ensures Trim(" " + target) == target
  {
    TrimSurrounded(" ", target, "");
    assert " " + target + "" == " " + target;
  }

  /** "navigate to", a blank and a trimmed argument navigate to exactly that
      argument. */
  lemma NavigateTarget(target: string, config: Config)
    requires IsTrimmed(target)
    ensures HandleVoiceCommand("navigate to " + target, config) == NavigateTo(target)
  {
    var nav, rest := "navigate to " + target, " " + target;
    assert VoiceCommands[1] == "navigate to";
    assert nav == VoiceCommands[1] + rest;
    HandleOfEntry(1, rest, nav, config);
    TrimAfterBlank(target);
  }

  /** "click on", a blank and a trimmed key click exactly that key. */
  lemma ClickTarget(key: string, config: Config)
    requires IsTrimmed(key)
    ensures HandleVoiceCommand("click on " + key, config) == ClickOn(key)
  {
    var click, rest := "click on " + key, " " + key;
    assert VoiceCommands[0] == "click on";
    assert click == VoiceCommands[0] + rest;
    HandleOfEntry(0, rest, click, config);
    TrimAfterBlank(key);
  }

  /** "navigate to" followed by a bare host goes to that host over https, and
      one that already names an http(s) scheme goes there unchanged. */
  lemma NavigateCommand(p: Page, target: string, config: Config)
    requires Valid(p) && IsTrimmed(target)
    ensures !HasHttpScheme(target) ==>
      Href(Apply(p, HandleVoiceCommand("navigate to " + target, config)).page) == "https://" + target
    ensures HasHttpScheme(target) ==>
      Href(Apply(p, HandleVoiceCommand("navigate to " + target, config)).page) == target
  {
    NavigateTarget(target, config);
    var r := Apply(p, NavigateTo(target));
    assert Href(r.page) == WithScheme(target);
  }

  /** A click on a key no element carries only warns: the page is unchanged. */
  lemma ClickOnMissingKey(p: Page, key: string, config: Config)
    requires Valid(p) && IsTrimmed(key)
    requires forall j :: 0 <= j < |p.elements| ==> p.elements[j].key != Some(key)
    ensures Apply(p, HandleVoiceCommand("click on " + key, config)) == Outcome(p, true)
  {
    ClickTarget(key, config);
    assert Query(p, key).None?;
  }
}

=== FILE: legacy.dfy ===
/** The older command handler: the same first-match parse, but its own switch
    with a fixed scroll step, a fixed fill text, a case no parse can reach and
    four table entries that it does not handle. */
module Legacy {
  import opened Wrappers
  import opened Text
  import opened Types
  import opened Parser
  import opened Processor
  import Dispatch

  /** The fixed scroll step of this handler. */
  const LegacyScrollAmount: int := 100

  /** The text "fill out" writes into the keyed element. */
  const SampleText: string := "Sample text"

  /** This handler's `switch (action)`. The "navigate to" case inlines the
      same scheme test `processNavigateTo` performs, so it is the same effect. */
  function LegacyActionEffect(action: string, target: string): (e: Effect)
    ensures e != Warn <==> action == "scroll top" || (action in VoiceCommands && !Unhandled(action))
  {
    if action == "click on" then ClickOn(target)
    else if action == "navigate to" then NavigateTo(target)
    else if action == "back" then Back
    else if action == "forward" then Forward
    else if action == "fill out" then SetValue(target, SampleText)
    else if action == "clear" then Clear(target)
    else if action == "scroll top" then Scroll(LegacyScrollAmount, Up)
    else if action == "scroll down" then Scroll(LegacyScrollAmount, Down)
    else if action == "refresh page" then RefreshPage
    else Warn
  }

  /** The table entries this switch has no case for. */
  predicate Unhandled(action: string) {
    action in {"scroll up", "up", "down", "focus on"}
  }

  /** `handleVoiceCommand(command)`: one effect, or the warning. */
  function HandleVoiceCommand(command: string): (e: Effect)
    ensures e == Warn <==> Parse(command).None? || Unhandled(Parse(command).value.action)
  {
    match Parse(command)
    case None => Warn
    case Some(p) =>
      LegacyCovers(p.action, p.target);
      LegacyActionEffect(p.action, p.target)
  }

  /** Of the table entries, exactly the four unhandled ones reach the default. */
  lemma LegacyCovers(action: string, target: string)
    requires action in VoiceCommands
    ensures LegacyActionEffect(action, target) == Warn <==> Unhandled(action)
  {
  }

  /** The "scroll top" case is dead: every parsed action is a table entry and
      "scroll top" is not one, so no command ever scrolls up by the fixed step. */
  lemma ScrollTopUnreachable(command: string)
    ensures HandleVoiceCommand(command) != Scroll(LegacyScrollAmount, Up)
  {
    match Parse(command)
    case None =>
    case Some(p) =>
      var i :| 0 <= i < |VoiceCommands| && VoiceCommands[i] == p.action;
      NoEntryScrollsUp(p.action, p.target);
  }

  lemma NoEntryScrollsUp(action: string, target: string)
    requires action in VoiceCommands
    ensures LegacyActionEffect(action, target) != Scroll(LegacyScrollAmount, Up)
  {
    assert "scroll top" !in VoiceCommands;
  }

  /** A table entry and any following text runs that entry's case with the
      trimmed text as target. */
  lemma LegacyOfEntry(i: nat, rest: string, command: string)
    requires i < |VoiceCommands| && command == VoiceCommands[i] + rest
    ensures HandleVoiceCommand(command) == LegacyActionEffect(VoiceCommands[i], Trim(rest))
  {
    ParseOfEntry(i, rest, command);
  }

  /** "scroll down" always moves the page down by the fixed 100, whatever
      follows it and whatever is configured elsewhere. */
  lemma ScrollDownFixed(p: Page, rest: string)
    requires Valid(p)
    ensures Apply(p, HandleVoiceCommand("scroll down" + rest)).page.scrollY == p.scrollY + 100
  {
    ScrollDownEffect(rest);
  }

  lemma ScrollDownEffect(rest: string)
    ensures HandleVoiceCommand("scroll down" + rest) == Scroll(LegacyScrollAmount, Down)
  {
    var c := "scroll down" + rest;
    assert VoiceCommands[7] == "scroll down";
    LegacyOfEntry(7, rest, c);
  }

  /** "fill out" focuses the element keyed by the remainder and overwrites its
      value with the fixed sample text; it does not write the spoken text. */
  lemma FillOutWritesSample(rest: string)
    ensures HandleVoiceCommand("fill out" + rest) == SetValue(Trim(rest), "Sample text")
  {
    var c := "fill out" + rest;
    assert VoiceCommands[4] == "fill out";
    LegacyOfEntry(4, rest, c);
  }

  /** Where both handlers have a case, they agree, except that "scroll down"
      uses the fixed step rather than the configured amount. */
  lemma AgreesWithCurrent(command: string, config: Config)
    requires Parse(command).Some?
    requires Parse(command).value.action in {"click on", "navigate to", "back", "forward", "clear", "refresh page"}
    ensures HandleVoiceCommand(command) == Dispatch.HandleVoiceCommand(command, config)
  {
  }
}

=== FILE: parser.dfy ===
/** The first-match parse both command handlers perform: the action is the
    first table entry the command starts with, and the target is what follows
    it, trimmed. The command itself is not normalised here. */
module Parser {
  import opened Wrappers
  import opened Text
  import opened Seqs
  import opened Types

  datatype Parsed = Parsed(action: string, target: string)

  /** The parse against an arbitrary table, in that table's order. */
  function ParseWith(table: seq<string>, command: string): (r: Option<Parsed>)
    ensures r.None? <==> forall j :: 0 <= j < |table| ==> !StartsWith(command, table[j])
    ensures r.Some? ==> StartsWith(command, r.value.action)
    ensures r.Some? ==> r.value.target == Trim(command[|r.value.action|..])
    ensures r.Some? ==> exists i :: 0 <= i < |table| && table[i] == r.value.action
                                    && forall j :: 0 <= j < i ==> !StartsWith(command, table[j])
  {
    match FirstWhere(table, (cmd: string) => StartsWith(command, cmd))
    case None => None
    case Some(i) => Some(Parsed(table[i], Trim(command[|table[i]|..])))
  }

  /** The parse against the declared command table: it fails exactly when no
      entry prefixes the command, and otherwise names an entry that does, with
      the rest of the command, trimmed, as the target. */
  function Parse(command: string): (r: Option<Parsed>)
    ensures r.None? <==> forall x :: x in VoiceCommands ==> !StartsWith(command, x)
    ensures r.Some? ==> r.value.action in VoiceCommands && StartsWith(command, r.value.action)
    ensures r.Some? ==> r.value.target == Trim(command[|r.value.action|..])
  {
    ParseWith(VoiceCommands, command)
  }

  /** Two prefixes of one string are prefixes of each other. */
  lemma PrefixesComparable(s: string, a: string, b: string)
    requires StartsWith(s, a) && StartsWith(s, b) && |a| <= |b|
    ensures StartsWith(b, a)
  {
    assert a == s[..|a|] == b[..|a|];
  }

  /** A command starts with at most one table entry. */
  lemma MatchUnique(command: string, a: string, b: string)
    requires a in VoiceCommands && b in VoiceCommands
    requires StartsWith(command, a) && StartsWith(command, b)
    ensures a == b
  {
    TablePrefixFree();
    var i :| 0 <= i < |VoiceCommands| && VoiceCommands[i] == a;
    var j :| 0 <= j < |VoiceCommands| && VoiceCommands[j] == b;
    if |a| <= |b| {
      PrefixesComparable(command, a, b);
    } else {
      PrefixesComparable(command, b, a);
    }
  }

  /** The parse finds an entry exactly when some entry prefixes the command,
      and the entry it finds is the only one that does. */
  lemma ParseCharacterised(command: string)
    ensures Parse(command).Some? <==> exists x :: x in VoiceCommands && StartsWith(command, x)
    ensures Parse(command).Some? ==> Parse(command).value.action in VoiceCommands
    ensures Parse(command).Some? ==>
      forall x :: x in VoiceCommands && StartsWith(command, x) ==> x == Parse(command).value.action
  {
    var r := Parse(command);
    if r.None? {
      forall x | x in VoiceCommands
        ensures !StartsWith(command, x)
      {
        var i :| 0 <= i < |VoiceCommands| && VoiceCommands[i] == x;
      }
    } else {
      forall x | x in VoiceCommands && StartsWith(command, x)
        ensures x == r.value.action
      {
        MatchUnique(command, x, r.value.action);
      }
    }
  }

  /** An entry followed by anything parses as that entry, whatever follows it;
      the target is the trimmed remainder. */
  lemma ParseOfEntry(i: nat, rest: string, command: string)
    requires i < |VoiceCommands| && command == VoiceCommands[i] + rest
    ensures Parse(command) == Some(Parsed(VoiceCommands[i], Trim(rest)))
  {
    var e := VoiceCommands[i];
    assert StartsWith(command, e);
    ParseCharacterised(command);
    var p := Parse(command).value;
    MatchUnique(command, e, p.action);
    assert command[|e|..] == rest;
  }

  /** The declaration order of the table never changes the parse: any
      rearrangement of the entries parses every command the same way. */
  lemma ParseOrderIrrelevant(table: seq<string>, command: string)
    requires multiset(table) == multiset(VoiceCommands)
    ensures ParseWith(table, command) == Parse(command)
  {
    var r := ParseWith(table, command);
    ParseCharacterised(command);
    if r.Some? {
      var i :| 0 <= i < |table| && table[i] == r.value.action;
      assert table[i] in multiset(table);
      MatchUnique(command, r.value.action, Parse(command).value.action);
    } else {
      forall x | x in VoiceCommands
        ensures !StartsWith(command, x)
      {
        assert x in multiset(VoiceCommands);
        assert x in table;
      }
    }
  }

  /** Every entry survives transcript normalisation and then parses as itself
      with an empty target. */
  lemma NormalisedEntryParses(i: nat)
    requires i < |VoiceCommands|
    ensures Parse(Normalise(VoiceCommands[i])) == Some(Parsed(VoiceCommands[i], ""))
  {
    TableNormalised();
    var e := VoiceCommands[i];
    assert e == VoiceCommands[i] + "";
    ParseOfEntry(i, "", e);
    TrimOfTrimmed("");
  }

  /** Matching has no word boundary: whatever follows "up" or "back" (as in
      "update" or "backup") becomes the target of that command. */
  lemma NoWordBoundary(rest: string)
    ensures Parse("up" + rest) == Some(Parsed("up", Trim(rest)))
    ensures Parse("back" + rest) == Some(Parsed("back", Trim(rest)))
  {
    var up, back := "up" + rest, "back" + rest;
    assert VoiceCommands[9] == "up" && VoiceCommands[2] == "back";
    ParseOfEntry(9, rest, up);
    ParseOfEntry(2, rest, back);
  }

  /** The parse is case- and whitespace-sensitive: a command that starts with
      a blank or a capital letter, such as "  Back" or "Back", matches no
      entry. */
  lemma ParseUnnormalisedFails(command: string)
    requires |command| > 0 && (IsSpace(command[0]) || 'A' <= command[0] <= 'Z')
    ensures Parse(command) == None
  {
    forall x | x in VoiceCommands
      ensures !StartsWith(command, x)
    {
      assert 'a' <= x[0] <= 'z';
    }
    ParseCharacterised(command);
  }
}

=== FILE: processor.dfy ===
/**
  The effectors: each command's action as a transformation of an abstract
  page. Elements are kept in document order and addressed by their
  `data-cmd` key; a warning leaves the page as it was.
 */
module Processor {
  import opened Wrappers
  import opened Text
  import opened Seqs

  /** The part of `tagName` the effectors inspect. */
  datatype Tag = Input | TextArea | OtherTag

  datatype Element = Element(
    key: Option<string>,    // the `data-cmd` attribute, if any
    tag: Tag,
    contentEditable: bool,  // `isContentEditable`
    focusable: bool,        // `focus()` makes it the active element
    value: string,          // the form value of an input or text area
    text: string)           // `textContent`

  datatype Page = Page(
    elements: seq<Element>,  // in document order
    active: Option<nat>,     // index of `document.activeElement`
    scrollY: int,            // vertical scroll offset
    scrollHeight: int,       // `document.body.scrollHeight`
    history: seq<string>,    // session history entries
    cursor: nat,             // index of the current entry
    reloads: nat,            // reloads requested
    clicks: seq<nat>)        // elements activated, in order

  /** Indices refer to existing elements and history entries. */
  predicate Valid(p: Page) {
    && p.cursor < |p.history|
    && (p.active.Some? ==> p.active.value < |p.elements|)
    && forall k :: 0 <= k < |p.clicks| ==> p.clicks[k] < |p.elements|
  }

  /** `window.location.href`. */
  function Href(p: Page): (url: string)
    requires Valid(p)
  {
    p.history[p.cursor]
  }

  /** What an effector leaves behind, and whether it only warned. */
  datatype Outcome = Outcome(page: Page, warned: bool)

  function Warned(p: Page): (r: Outcome) {
    Outcome(p, true)
  }

  function Done(p: Page): (r: Outcome) {
    Outcome(p, false)
  }

  /** `document.querySelector("[data-cmd='key']")`: the first element in
      document order whose key is `key`. */
  function Query(p: Page, key: string): (r: Option<nat>)
    ensures r.Some? ==> r.value < |p.elements| && p.elements[r.value].key == Some(key)
    ensures r.Some? ==> forall j :: 0 <= j < r.value ==> p.elements[j].key != Some(key)
    ensures r.None? <==> forall j :: 0 <= j < |p.elements| ==> p.elements[j].key != Some(key)
  {
    FirstWhere(p.elements, (e: Element) => e.key == Some(key))
  }

  /** `processClickOn`: activate the keyed element, or warn. */
  function ProcessClickOn(p: Page, key: string): (r: Outcome)
    requires Valid(p)
    ensures Valid(r.page)
    ensures r.warned <==> Query(p, key).None?
    ensures r.warned ==> r.page == p
    ensures !r.warned ==> exists i :: Query(p, key) == Some(i) && r.page == p.(clicks := p.clicks + [i])
  {
    match Query(p, key)
    case None => Warned(p)
    case Some(i) => Done(p.(clicks := p.clicks + [i]))
  }

  /** The test `/^https?:\/\//i`: an http or https scheme, in any case. The
      pattern is anchored, so only the first seven or eight characters count. */
  function HasHttpScheme(url: string): (b: bool)
    ensures b <==> (|url| >= 7 && ToLower(url[..7]) == "http://") || (|url| >= 8 && ToLower(url[..8]) == "https://")
  {
    LowerPrefix(url, 7);
    LowerPrefix(url, 8);
    StartsWith(ToLower(url), "http://") || StartsWith(ToLower(url), "https://")
  }

  /** The URL `processNavigateTo` assigns: the target itself when it already
      names an http(s) scheme, otherwise the target under "https://". */
  function WithScheme(target: string): (url: string)
    ensures HasHttpScheme(url)
    ensures HasHttpScheme(target) ==> url == target
    ensures !HasHttpScheme(target) ==> url == "https://" + target
  {
    if HasHttpScheme(target) then target
    else
      var url := "https://" + target;
      ToLowerAppend("https://", target);
      assert ToLower("https://") == "https://";
      url
  }

  lemma WithSchemeIdempotent(target: string)
    ensures WithScheme(WithScheme(target)) == WithScheme(target)
  {
  }

  /** `processNavigateTo`: assign the defaulted URL to `location.href`. A URL
      other than the current one adds a history entry after the current one
      and drops those beyond it; the current URL replaces the current entry
      with itself, so the history stays as it is. */
  function ProcessNavigateTo(p: Page, target: string): (r: Outcome)
    requires Valid(p)
    ensures Valid(r.page) && !r.warned
    ensures Href(r.page) == WithScheme(target) && HasHttpScheme(Href(r.page))
    ensures r.page == p.(history := r.page.history, cursor := r.page.cursor)
    ensures WithScheme(target) == Href(p) ==> r.page == p
    ensures WithScheme(target) != Href(p) ==>
      r.page.cursor == p.cursor + 1 && r.page.history[..r.page.cursor] == p.history[..p.cursor + 1]
    ensures WithScheme(target) != Href(p) ==> |r.page.history| == r.page.cursor + 1
  {
    var url := WithScheme(target);
    if url == Href(p) then Done(p)
    else Done(p.(history := p.history[..p.cursor + 1] + [url], cursor := p.cursor + 1))
  }

  /** `processBack`: one step back in history, if there is one. */
  function ProcessBack(p: Page): (r: Outcome)
    requires Valid(p)
    ensures Valid(r.page) && !r.warned
    ensures r.page == p.(cursor := r.page.cursor)
    ensures r.page.cursor == if p.cursor > 0 then p.cursor - 1 else p.cursor
  {
    Done(if p.cursor > 0 then p.(cursor := p.cursor - 1) else p)
  }

  /** `processForward`: one step forward in history, if there is one. */
  function ProcessForward(p: Page): (r: Outcome)
    requires Valid(p)
    ensures Valid(r.page) && !r.warned
    ensures r.page == p.(cursor := r.page.cursor)
    ensures r.page.cursor == if p.cursor + 1 < |p.history| then p.cursor + 1 else p.cursor
  {
    Done(if p.cursor + 1 < |p.history| then p.(cursor := p.cursor + 1) else p)
  }

  /** Forward undoes back, and back undoes navigation. */
  lemma BackThenForward(p: Page)
    requires Valid(p) && p.cursor > 0
    ensures ProcessForward(ProcessBack(p).page).page == p
  {
  }

  /** Back after navigating elsewhere returns to the previous location; after
      navigating to the current location it is an ordinary back. */
  lemma NavigateThenBack(p: Page, target: string)
    requires Valid(p)
    ensures WithScheme(target) != Href(p) ==>
      Href(ProcessBack(ProcessNavigateTo(p, target).page).page) == Href(p)
    ensures WithScheme(target) == Href(p) ==>
      ProcessBack(ProcessNavigateTo(p, target).page) == ProcessBack(p)
  {
    var q := ProcessNavigateTo(p, target).page;
    if WithScheme(target) != Href(p) {
      assert q.history[p.cursor] == q.history[..q.cursor][p.cursor];
    }
  }

  /** `focus()` on element `i`: a focusable element becomes the active one;
      on any other element it does nothing. */
  function Focus(p: Page, i: nat): (r: Page)
    requires Valid(p) && i < |p.elements|
    ensures Valid(r)
    ensures p.elements[i].focusable ==> r == p.(active := Some(i))
    ensures !p.elements[i].focusable ==> r == p
  {
    if p.elements[i].focusable then p.(active := Some(i)) else p
  }

  /** `processFocusOn`: focus the keyed element, or warn. */
  function ProcessFocusOn(p: Page, key: string): (r: Outcome)
    requires Valid(p)
    ensures Valid(r.page)
    ensures r.warned <==> Query(p, key).None?
    ensures r.warned ==> r.page == p
    ensures !r.warned && p.elements[Query(p, key).value].focusable ==> r.page == p.(active := Query(p, key))
    ensures !r.warned && !p.elements[Query(p, key).value].focusable ==> r.page == p
  {
    match Query(p, key)
    case None => Warned(p)
    case Some(i) => Done(Focus(p, i))
  }

  /** Focusing a focusable text field and then filling out appends the text
      to that field's value. */
  lemma FocusThenFill(p: Page, key: string, text: string)
    requires Valid(p) && Query(p, key).Some?
    requires p.elements[Query(p, key).value].focusable && IsTextField(p.elements[Query(p, key).value])
    ensures var i := Query(p, key).value;
      var r := ProcessFillOut(ProcessFocusOn(p, key).page, text);
      !r.warned && r.page.active == Some(i) && r.page.elements[i].value == p.elements[i].value + text
  {
  }

  /** The focused element accepts text into its value. */
  predicate IsTextField(e: Element) {
    e.tag == Input || e.tag == TextArea
  }

  /** `processFillOut`: append the text to the focused input or text area's
      value, else to the focused editable element's text, else warn. */
  function ProcessFillOut(p: Page, text: string): (r: Outcome)
    requires Valid(p)
    ensures Valid(r.page)
    ensures r.warned <==> p.active.None? || !(IsTextField(p.elements[p.active.value]) || p.elements[p.active.value].contentEditable)
    ensures r.warned ==> r.page == p
    ensures !r.warned ==> |r.page.elements| == |p.elements| && r.page == p.(elements := r.page.elements)
    ensures !r.warned ==> forall j :: 0 <= j < |p.elements| && Some(j) != p.active ==> r.page.elements[j] == p.elements[j]
    ensures !r.warned && IsTextField(p.elements[p.active.value]) ==>
      r.page.elements[p.active.value] == p.elements[p.active.value].(value := p.elements[p.active.value].value + text)
    ensures !r.warned && !IsTextField(p.elements[p.active.value]) ==>
      r.page.elements[p.active.value] == p.elements[p.active.value].(text := p.elements[p.active.value].text + text)
  {
    match p.active
    case None => Warned(p)
    case Some(i) =>
      var e := p.elements[i];
      if IsTextField(e) then Done(p.(elements := p.elements[i := e.(value := e.value + text)]))
      else if e.contentEditable then Done(p.(elements := p.elements[i := e.(text := e.text + text)]))
      else Warned(p)
  }

  /** Two fills in a row append both texts, in order. */
  lemma FillOutTwice(p: Page, a: string, b: string)
    requires Valid(p)
    ensures ProcessFillOut(ProcessFillOut(p, a).page, b) == ProcessFillOut(p, a + b)
  {
    var q := ProcessFillOut(p, a);
    if !q.warned {
      var i := p.active.value;
      var e := p.elements[i];
      if IsTextField(e) {
        assert e.value + a + b == e.value + (a + b);
      } else {
        assert e.text + a + b == e.text + (a + b);
      }
    }
  }

  /** `processClear`: empty the keyed element's value, or warn. */
  function ProcessClear(p: Page, key: string): (r: Outcome)
    requires Valid(p)
    ensures Valid(r.page)
    ensures r.warned <==> Query(p, key).None?
    ensures r.warned ==> r.page == p
    ensures !r.warned ==> |r.page.elements| == |p.elements| && r.page == p.(elements := r.page.elements)
    ensures !r.warned ==> forall j :: 0 <= j < |p.elements| && Some(j) != Query(p, key) ==> r.page.elements[j] == p.elements[j]
    ensures !r.warned ==> r.page.elements[Query(p, key).value].value == []
  {
    match Query(p, key)
    case None => Warned(p)
    case Some(i) => Done(p.(elements := p.elements[i := p.elements[i].(value := "")]))
  }

  /** Clearing twice is clearing once. */
  lemma ClearIdempotent(p: Page, key: string)
    requires Valid(p)
    ensures ProcessClear(ProcessClear(p, key).page, key).page == ProcessClear(p, key).page
  {
    var q := ProcessClear(p, key).page;
    if Query(p, key).Some? {
      var i := Query(p, key).value;
      assert q.elements[i].key == p.elements[i].key;
      forall j | 0 <= j < i
        ensures q.elements[j].key != Some(key)
      {
        assert q.elements[j] == p.elements[j];
      }
      assert Query(q, key) == Some(i);
      assert q.elements[i := q.elements[i].(value := "")] == q.elements;
    }
  }

  datatype Direction = Up | Down

  /** The vertical offset `processScroll` passes to `scrollBy`. */
  function ScrollDelta(amount: int, direction: Direction): (d: int)
    ensures direction == Up ==> d == -amount
    ensures direction == Down ==> d == amount
  {
    if direction == Up then -amount else amount
  }

  /** `processScroll`: scroll by the signed amount. */
  function ProcessScroll(p: Page, amount: int, direction: Direction): (r: Outcome)
    requires Valid(p)
    ensures Valid(r.page) && !r.warned
    ensures r.page == p.(scrollY := p.scrollY + ScrollDelta(amount, direction))
  {
    Done(p.(scrollY := p.scrollY + ScrollDelta(amount, direction)))
  }

  /** Scrolling up and then down by the same amount returns to the start. */
  lemma ScrollUpThenDown(p: Page, amount: int)
    requires Valid(p)
    ensures ProcessScroll(ProcessScroll(p, amount, Up).page, amount, Down).page == p
  {
  }

  datatype Position = Top | Bottom

  /** `processScrollTo`: jump to offset 0 or to the full height. */
  function ProcessScrollTo(p: Page, position: Position): (r: Outcome)
    requires Valid(p)
    ensures Valid(r.page) && !r.warned
    ensures r.page == p.(scrollY := if position == Top then 0 else p.scrollHeight)
  {
    Done(p.(scrollY := if position == Top then 0 else p.scrollHeight))
  }

  /** Scrolling to a position does not depend on where the page was. */
  lemma ScrollToForgetsOffset(p: Page, position: Position, y: int)
    requires Valid(p)
    ensures ProcessScrollTo(p.(scrollY := y), position) == ProcessScrollTo(p, position)
  {
  }

  /** `processRefreshPage`: request one reload. */
  function ProcessRefreshPage(p: Page): (r: Outcome)
    requires Valid(p)
    ensures Valid(r.page) && !r.warned
    ensures r.page == p.(reloads := p.reloads + 1)
  {
    Done(p.(reloads := p.reloads + 1))
  }

  /** The older handler's inline "fill out": focus the keyed element and set
      its value to a fixed text, or warn. */
  function FocusAndSet(p: Page, key: string, value: string): (r: Outcome)
    requires Valid(p)
    ensures Valid(r.page)
    ensures r.warned <==> Query(p, key).None?
    ensures r.warned ==> r.page == p
    ensures !r.warned ==> |r.page.elements| == |p.elements| && r.page == p.(active := r.page.active, elements := r.page.elements)
    ensures !r.warned ==> r.page.elements[Query(p, key).value].value == value
    ensures !r.warned && p.elements[Query(p, key).value].focusable ==> r.page.active == Query(p, key)
    ensures !r.warned && !p.elements[Query(p, key).value].focusable ==> r.page.active == p.active
    ensures !r.warned ==> forall j :: 0 <= j < |p.elements| && Some(j) != Query(p, key) ==> r.page.elements[j] == p.elements[j]
  {
    match Query(p, key)
    case None => Warned(p)
    case Some(i) =>
      var q := Focus(p, i);
      Done(q.(elements := q.elements[i := q.elements[i].(value := value)]))
  }

  /** One effector invocation chosen by a command handler, or the handler's
      own unknown-command warning. */
  datatype Effect =
    | ClickOn(key: string)
    | NavigateTo(target: string)
    | Back
    | Forward
    | FocusOn(key: string)
    | FillOut(text: string)
    | Clear(key: string)
    | Scroll(amount: int, direction: Direction)
    | RefreshPage
    | ScrollTo(position: Position)
    | SetValue(key: string, value: string)
    | Warn

  /** Carry out one effect. */
  function Apply(p: Page, e: Effect): (r: Outcome)
    requires Valid(p)
    ensures Valid(r.page)
    ensures r.warned ==> r.page == p
    ensures e == Warn ==> r.warned
  {
    match e
    case ClickOn(key) => ProcessClickOn(p, key)
    case NavigateTo(target) => ProcessNavigateTo(p, target)
    case Back => ProcessBack(p)
    case Forward => ProcessForward(p)
    case FocusOn(key) => ProcessFocusOn(p, key)
    case FillOut(text) => ProcessFillOut(p, text)
    case Clear(key) => ProcessClear(p, key)
    case Scroll(amount, direction) => ProcessScroll(p, amount, direction)
    case RefreshPage => ProcessRefreshPage(p)
    case ScrollTo(position) => ProcessScrollTo(p, position)
    case SetValue(key, value) => FocusAndSet(p, key, value)
    case Warn => Warned(p)
  }
}

=== FILE: recognition.dfy ===
/** Engine set-up and the result handler: how a configuration becomes engine
    settings, and how a result event becomes one command dispatch. */
module Recognition {
  import opened Wrappers
  import opened Text
  import opened Types
  import opened Processor
  import Dispatch

  /** The language used when none (or the empty string) is configured. */
  const DefaultLanguage: string := "en-US"

  /** The settings written onto a new engine object. */
  datatype Settings = Settings(lang: string, continuous: bool, interimResults: bool, grammar: string)

  /** The constructors the host offers: an engine (`SpeechRecognition` or
      `webkitSpeechRecognition`) and a grammar list (`SpeechGrammarList` or
      `webkitSpeechGrammarList`). */
  datatype Host = Host(engine: bool, grammarList: bool)

  /** What set-up throws: the unsupported-browser Error when there is no engine
      constructor, or the TypeError of `new undefined()` when there is no
      grammar-list constructor. */
  datatype InitError = Unsupported | NoGrammarList

  /** `lang = config.language || "en-US"`, `continuous = true`,
      `interimResults = config.interimResults ?? false`,
      `grammar = config.grammar ?? grammars`. */
  function Resolve(config: Config): (s: Settings)
    ensures s.continuous
    ensures config.language.Some? && config.language.value != [] ==> s.lang == config.language.value
    ensures config.language.None? || config.language.value == [] ==> s.lang == DefaultLanguage
    ensures s.interimResults <==> config.interimResults == Some(true)
    ensures config.grammar.Some? ==> s.grammar == config.grammar.value
    ensures config.grammar.None? ==> s.grammar == BuiltinGrammar
  {
    var lang := match config.language
      case Some(l) => if l != [] then l else DefaultLanguage
      case None => DefaultLanguage;
    Settings(lang, true, config.interimResults.GetOr(false), config.grammar.GetOr(BuiltinGrammar))
  }

  /** The configured `continuous` flag has no effect, and neither do the
      fields the handler reads elsewhere. */
  lemma ResolveIgnores(config: Config, continuous: Option<bool>, scroll: Option<int>, autoStart: Option<bool>)
    ensures Resolve(config.(continuous := continuous, scrollAmount := scroll, autoStart := autoStart)) == Resolve(config)
  {
  }

  /** A configuration that spells out resolved settings resolves to them
      again. */
  function AsConfig(s: Settings): (config: Config) {
    Config(None, Some(s.lang), Some(s.continuous), Some(s.interimResults), Some(s.grammar), None)
  }

  lemma ResolveRoundTrip(config: Config)
    ensures Resolve(AsConfig(Resolve(config))) == Resolve(config)
  {
  }

  /** `initializeVoiceRecognition`: fails when the host lacks the engine or
      the grammar-list constructor, and otherwise yields an engine configured
      by `Resolve`. */
  function Initialize(config: Config, host: Host): (r: Result<Settings, InitError>)
    ensures r.Success? <==> host.engine && host.grammarList
    ensures !host.engine ==> r == Failure(Unsupported)
    ensures host.engine && !host.grammarList ==> r == Failure(NoGrammarList)
    ensures r.Success? ==> r.value == Resolve(config)
  {
    if !host.engine then Failure(Unsupported)
    else if !host.grammarList then Failure(NoGrammarList)
    else Success(Resolve(config))
  }

  /** Re-initialising from the settings an engine was given yields the same
      engine settings. */
  lemma InitializeRoundTrip(config: Config, host: Host)
    ensures Initialize(config, host).Success? ==>
      Initialize(AsConfig(Initialize(config, host).value), host) == Initialize(config, host)
  {
    ResolveRoundTrip(config);
  }

  /** One recognition result: its alternatives' transcripts, best first. */
  type Alternatives = seq<string>

  /** The command a result event yields: the first alternative of the last
      result, trimmed and lower-cased. None when that entry does not exist,
      where the handler throws before dispatching. */
  function Transcript(results: seq<Alternatives>): (r: Option<string>)
    ensures r.Some? <==> |results| > 0 && |results[|results| - 1]| > 0
    ensures r.Some? ==> r.value == Normalise(results[|results| - 1][0])
  {
    if |results| == 0 || |results[|results| - 1]| == 0 then None
    else Some(Normalise(results[|results| - 1][0]))
  }

  /** The `onresult` handler: at most one dispatch, of the normalised
      transcript, with the engine's own configuration. */
  function OnResult(results: seq<Alternatives>, config: Config): (r: Option<Effect>)
    ensures r.Some? <==> Transcript(results).Some?
    ensures r.Some? ==> r.value == Dispatch.HandleVoiceCommand(Transcript(results).value, config)
  {
    match Transcript(results)
    case None => None
    case Some(command) => Some(Dispatch.HandleVoiceCommand(command, config))
  }

  /** Earlier results and the later alternatives of the last one do not
      matter. */
  lemma OnlyLastBestCounts(earlier: seq<Alternatives>, best: string, others: seq<string>, config: Config)
    ensures OnResult(earlier + [[best] + others], config) == OnResult([[best]], config)
  {
    var results := earlier + [[best] + others];
    assert results[|results| - 1] == [best] + others;
  }

  /** Recognition is insensitive to case and to surrounding whitespace: any
      spelling of a table entry, padded with blanks, dispatches that entry. */
  lemma SpokenEntryRecognised(i: nat, lead: string, spoken: string, trail: string, config: Config)
    requires i < |VoiceCommands|
    requires AllSpace(lead) && AllSpace(trail) && ToLower(spoken) == VoiceCommands[i]
    ensures OnResult([[lead + spoken + trail]], config) == Some(Dispatch.HandleVoiceCommand(VoiceCommands[i], config))
    ensures OnResult([[lead + spoken + trail]], config) != Some(Warn)
  {
    var raw := lead + spoken + trail;
    PaddedEntryTranscript(i, lead, spoken, trail);
    assert Transcript([[raw]]) == Some(VoiceCommands[i]);
    Dispatch.HandleOfBareEntry(i, config);
    Dispatch.ActionCovered(VoiceCommands[i], "", Dispatch.ScrollAmount(config));
  }

  lemma PaddedEntryTranscript(i: nat, lead: string, spoken: string, trail: string)
    requires i < |VoiceCommands|
    requires AllSpace(lead) && AllSpace(trail) && ToLower(spoken) == VoiceCommands[i]
    ensures Normalise(lead + spoken + trail) == VoiceCommands[i]
  {
    TableNormalised();
    var e := VoiceCommands[i];
    assert IsTrimmed(spoken) by {
      if spoken != [] {
        assert e[0] == LowerChar(spoken[0]) && e[|e| - 1] == LowerChar(spoken[|spoken| - 1]);
      }
    }
    TrimSurrounded(lead, spoken, trail);
  }

  /** For example, "  Scroll Up  " scrolls up by the configured amount. */
  lemma SpokenScrollUp(lead: string, trail: string, config: Config)
    requires AllSpace(lead) && AllSpace(trail)
    ensures OnResult([[lead + "Scroll Up" + trail]], config) == Some(Scroll(Dispatch.ScrollAmount(config), Up))
  {
    assert ToLower("Scroll Up") == VoiceCommands[6];
    SpokenEntryRecognised(6, lead, "Scroll Up", trail, config);
    Dispatch.HandleOfBareEntry(6, config);
  }
}

=== FILE: seqs.dfy ===
/** First-match search over a sequence, the shape shared by the command-table
    loop (`for … of … { if … break }`) and `document.querySelector`. */
module Seqs {
  import opened Wrappers

  /** The index of the first element satisfying `p`, or None. */
  function FirstWhere<T>(s: seq<T>, p: T -> bool): (r: Option<nat>)
    ensures r.Some? ==> r.value < |s| && p(s[r.value])
    ensures r.Some? ==> forall j :: 0 <= j < r.value ==> !p(s[j])
    ensures r.None? <==> forall j :: 0 <= j < |s| ==> !p(s[j])
  {
    if |s| == 0 then None
    else if p(s[0]) then Some(0)
    else
      match FirstWhere(s[1..], p)
      case None => None
      case Some(i) => Some(i + 1)
  }
}

=== FILE: supervisor.dfy ===
/**
  The recognition session supervisor as the code has it: two modules, each
  with its own module-level variables, reacting to control calls, engine
  events and timer callbacks. The manager module owns `recognitionActive`,
  its own `recognitionRunning` and the current engine; the recognition
  module owns a second `recognitionRunning`, a second `speechRecognition`
  variable and the pending restart timers.

  The recognition module's restart guard tests its own `speechRecognition`
  variable, which starts out null and is assigned nowhere. The model keeps
  that variable's truthiness as the field `armed`: it is false initially,
  and no event changes it.
 */
module Supervisor {
  import opened Wrappers
  import opened Types
  import Recognition

  /** `restartDelay`, in milliseconds. */
  const RestartDelay: nat := 1000

  /** Which module issued an engine `start()`. */
  datatype Origin = Manager | Restart

  /** A call made on an engine object, identified by its creation index. */
  datatype EngineCall = StartCall(engine: nat, origin: Origin) | StopCall(engine: nat)

  /** A pending `setTimeout(() => restartRecognition(engine), delay)`. */
  datatype Timer = Timer(engine: nat, delay: nat)

  datatype State = State(
    engines: seq<Recognition.Settings>,  // every engine object initialisation returned, in order
    // the manager module
    current: Option<nat>,                // its `speechRecognition`
    active: bool,                        // `recognitionActive`
    managerRunning: bool,                // its `recognitionRunning`
    // the recognition module
    armed: bool,                         // its `speechRecognition` is non-null
    running: bool,                       // its `recognitionRunning`
    timers: seq<Timer>,                  // pending restart callbacks, in firing order
    // what the engines were asked to do
    calls: seq<EngineCall>,
    // what `startVoiceRecognition` threw to its caller, in order
    errors: seq<Recognition.InitError>)

  /** Both modules as loaded. */
  const Init: State := State([], None, false, false, false, false, [], [], [])

  datatype Event =
    | StartRequested(config: Config, host: Recognition.Host)  // `startVoiceRecognition(config)`
    | StopRequested                                     // `stopVoiceRecognition()`
    | EngineEnded(engine: nat)                          // an engine's `onend`
    | EngineErrored(engine: nat)                        // an engine's `onerror`
    | TimerFired(startThrows: bool)                     // the earliest pending timer

  /** `startVoiceRecognition`: when inactive, create an engine; unless
      `autoStart` is false, mark the session active and running and start it.
      If creating the engine throws, nothing is assigned and the error reaches
      the caller. */
  function StartVoiceRecognition(s: State, config: Config, host: Recognition.Host): (r: Result<State, Recognition.InitError>)
    ensures s.active ==> r == Success(s)
    ensures r.Failure? <==> !s.active && !(host.engine && host.grammarList)
    ensures r.Failure? ==> r.error == (if !host.engine then Recognition.Unsupported else Recognition.NoGrammarList)
    ensures !s.active && r.Success? ==>
      && r.value.engines == s.engines + [Recognition.Resolve(config)]
      && r.value.current == Some(|s.engines|)
    ensures !s.active && r.Success? && config.autoStart != Some(false) ==>
      r.value.active && r.value.managerRunning && r.value.calls == s.calls + [StartCall(|s.engines|, Manager)]
    ensures !s.active && r.Success? && config.autoStart == Some(false) ==>
      !r.value.active && r.value.managerRunning == s.managerRunning && r.value.calls == s.calls
    ensures r.Success? ==>
      r.value == s.(engines := r.value.engines, current := r.value.current, active := r.value.active,
                    managerRunning := r.value.managerRunning, calls := r.value.calls)
  {
    if s.active then Success(s)
    else
      match Recognition.Initialize(config, host)
      case Failure(e) => Failure(e)
      case Success(settings) =>
        var id := |s.engines|;
        var created := s.(engines := s.engines + [settings], current := Some(id));
        if config.autoStart != Some(false) then
          Success(created.(active := true, managerRunning := true, calls := s.calls + [StartCall(id, Manager)]))
        else Success(created)
  }

  /** `stopVoiceRecognition`: when active with an engine, clear both manager
      flags and stop that engine; otherwise nothing. */
  function StopVoiceRecognition(s: State): (r: State)
    ensures !(s.active && s.current.Some?) ==> r == s
    ensures s.active && s.current.Some? ==>
      && !r.active && !r.managerRunning
      && r.calls == s.calls + [StopCall(s.current.value)]
      && r == s.(active := false, managerRunning := false, calls := r.calls)
  {
    if s.active && s.current.Some? then
      s.(active := false, managerRunning := false, calls := s.calls + [StopCall(s.current.value)])
    else s
  }

  /** The `onend` and `onerror` handlers (identical): clear the recognition
      module's running flag and, only if its `speechRecognition` is set,
      schedule a restart of the engine that ended. */
  function OnSessionOver(s: State, engine: nat): (r: State)
    ensures !r.running
    ensures s.armed ==> r.timers == s.timers + [Timer(engine, RestartDelay)]
    ensures !s.armed ==> r.timers == s.timers
    ensures r == s.(running := false, timers := r.timers)
  {
    s.(running := false, timers := if s.armed then s.timers + [Timer(engine, RestartDelay)] else s.timers)
  }

  /** `restartRecognition(engine)`: nothing while running; otherwise one
      `start()`, after which the module is running, or, if it throws, not
      running with one retry scheduled. */
  function RestartRecognition(s: State, engine: nat, startThrows: bool): (r: State)
    ensures s.running ==> r == s
    ensures !s.running ==> r.calls == s.calls + [StartCall(engine, Restart)]
    ensures !s.running && !startThrows ==> r.running && r.timers == s.timers
    ensures !s.running && startThrows ==> !r.running && r.timers == s.timers + [Timer(engine, RestartDelay)]
    ensures r == s.(running := r.running, timers := r.timers, calls := r.calls)
  {
    if s.running then s
    else
      var issued := s.calls + [StartCall(engine, Restart)];
      if !startThrows then s.(running := true, calls := issued)
      else s.(running := false, calls := issued, timers := s.timers + [Timer(engine, RestartDelay)])
  }

  /** A successful restart makes every later restart a no-op until the session
      ends again: restarts never overlap. */
  lemma RestartNoOverlap(s: State, engine: nat, other: nat, startThrows: bool)
    ensures !s.running ==>
      RestartRecognition(RestartRecognition(s, engine, false), other, startThrows) == RestartRecognition(s, engine, false)
  {
  }

  /** The earliest pending timer fires. All timers carry the same delay, so
      they fire in the order they were scheduled. */
  function FireTimer(s: State, startThrows: bool): (r: State)
    ensures s.timers == [] ==> r == s
    ensures s.timers != [] && s.running ==> r == s.(timers := s.timers[1..])
    ensures s.timers != [] && !s.running ==>
      r == s.(running := !startThrows,
              timers := s.timers[1..] + (if startThrows then [Timer(s.timers[0].engine, RestartDelay)] else []),
              calls := s.calls + [StartCall(s.timers[0].engine, Restart)])
  {
    if s.timers == [] then s
    else RestartRecognition(s.(timers := s.timers[1..]), s.timers[0].engine, startThrows)
  }

  /** One event. A failed start leaves the state as it was and records the
      error its caller receives. Engine events from objects never created have
      no handler. */
  function Step(s: State, e: Event): (r: State) {
    match e
    case StartRequested(config, host) =>
      (match StartVoiceRecognition(s, config, host)
       case Success(t) => t
       case Failure(err) => s.(errors := s.errors + [err]))
    case StopRequested => StopVoiceRecognition(s)
    case EngineEnded(engine) => if engine < |s.engines| then OnSessionOver(s, engine) else s
    case EngineErrored(engine) => if engine < |s.engines| then OnSessionOver(s, engine) else s
    case TimerFired(startThrows) => FireTimer(s, startThrows)
  }

  /** A sequence of events, in order. */
  function Run(s: State, events: seq<Event>): (r: State)
    decreases |events|
  {
    if events == [] then s else Run(Step(s, events[0]), events[1..])
  }

  /** The number of `start()` calls of the given origin. */
  function Starts(calls: seq<EngineCall>, origin: Origin): (n: nat)
    decreases |calls|
  {
    if calls == [] then 0
    else
      var last := calls[|calls| - 1];
      Starts(calls[..|calls| - 1], origin) + (if last.StartCall? && last.origin == origin then 1 else 0)
  }

  /** The number of `stop()` calls. */
  function Stops(calls: seq<EngineCall>): (n: nat)
    decreases |calls|
  {
    if calls == [] then 0
    else Stops(calls[..|calls| - 1]) + (if calls[|calls| - 1].StopCall? then 1 else 0)
  }

  lemma CountAppend(calls: seq<EngineCall>, c: EngineCall, origin: Origin)
    ensures Starts(calls + [c], origin) == Starts(calls, origin) + (if c.StartCall? && c.origin == origin then 1 else 0)
    ensures Stops(calls + [c]) == Stops(calls) + (if c.StopCall? then 1 else 0)
  {
    assert (calls + [c])[..|calls|] == calls;
  }

  /** What every reachable state satisfies. */
  predicate Inv(s: State) {
    && (s.current.Some? ==> s.current.value < |s.engines|)
    && (s.active ==> s.current.Some?)
    && (forall t :: t in s.timers ==> t.delay == RestartDelay && t.engine < |s.engines|)
    && Starts(s.calls, Manager) == Stops(s.calls) + (if s.active then 1 else 0)
    && (!s.armed ==> s.timers == [] && Starts(s.calls, Restart) == 0)
  }

  lemma InitInv()
    ensures Inv(Init) && !Init.armed
  {
  }

  /** Every event keeps the invariant and leaves `armed` alone. */
  lemma StepInv(s: State, e: Event)
    requires Inv(s)
    ensures Inv(Step(s, e)) && Step(s, e).armed == s.armed
  {
    var r := Step(s, e);
    match e
    case StartRequested(config, host) =>
      StartInv(s, config, host);
    case StopRequested =>
      if s.active && s.current.Some? {
        CountAppend(s.calls, StopCall(s.current.value), Manager);
        CountAppend(s.calls, StopCall(s.current.value), Restart);
      }
    case EngineEnded(engine) =>
    case EngineErrored(engine) =>
    case TimerFired(startThrows) =>
      TimerInv(s, startThrows);
  }

  lemma TimerInv(s: State, startThrows: bool)
    requires Inv(s)
    ensures Inv(FireTimer(s, startThrows)) && FireTimer(s, startThrows).armed == s.armed
  {
    if s.timers != [] {
      var t := s.timers[0];
      assert t in s.timers;
      var popped := s.(timers := s.timers[1..]);
      assert forall u :: u in popped.timers ==> u in s.timers;
      if !popped.running {
        CountAppend(s.calls, StartCall(t.engine, Restart), Manager);
        CountAppend(s.calls, StartCall(t.engine, Restart), Restart);
      }
    }
  }

  lemma StartInv(s: State, config: Config, host: Recognition.Host)
    requires Inv(s)
    ensures Inv(Step(s, StartRequested(config, host))) && Step(s, StartRequested(config, host)).armed == s.armed
  {
    if !s.active && host.engine && host.grammarList && config.autoStart != Some(false) {
      CountAppend(s.calls, StartCall(|s.engines|, Manager), Manager);
      CountAppend(s.calls, StartCall(|s.engines|, Manager), Restart);
    }
  }

  lemma {:induction false} RunInv(s: State, events: seq<Event>)
    requires Inv(s)
    ensures Inv(Run(s, events)) && Run(s, events).armed == s.armed
    decreases |events|
  {
    if events != [] {
      StepInv(s, events[0]);
      RunInv(Step(s, events[0]), events[1..]);
    }
  }

  /** However start and stop requests and engine events interleave, the
      manager issues at most one more `start()` than `stop()`. */
  lemma ManagerStartsBounded(events: seq<Event>)
    ensures Starts(Run(Init, events).calls, Manager) <= Stops(Run(Init, events).calls) + 1
  {
    InitInv();
    RunInv(Init, events);
  }

  /** As written, no restart is ever scheduled and no restart `start()` is
      ever issued: ended or failed sessions stay down. */
  lemma NoRestartAsWritten(events: seq<Event>)
    ensures Run(Init, events).timers == []
    ensures Starts(Run(Init, events).calls, Restart) == 0
  {
    InitInv();
    RunInv(Init, events);
  }

  /** With `autoStart` false, start never activates the session, so every
      call creates a fresh engine and none is started. */
  lemma NoAutoStartReinitialises(s: State, config: Config, host: Recognition.Host)
    requires !s.active && config.autoStart == Some(false) && host.engine && host.grammarList
    ensures var r := Run(s, [StartRequested(config, host), StartRequested(config, host)]);
      |r.engines| == |s.engines| + 2 && !r.active && r.calls == s.calls
  {
    var ev := StartRequested(config, host);
    var once := Step(s, ev);
    var twice := Step(once, ev);
    assert [ev, ev][1..] == [ev] && [ev][1..] == [];
    assert Run(s, [ev, ev]) == Run(once, [ev]) == Run(twice, []) == twice;
  }

  /** A start that throws changes nothing but the record of errors its caller
      received; in particular the session stays inactive. */
  lemma FailedStartChangesNothing(s: State, config: Config, host: Recognition.Host)
    requires !s.active && !(host.engine && host.grammarList)
    ensures var r := Step(s, StartRequested(config, host));
      !r.active && r == s.(errors := r.errors) && |r.errors| == |s.errors| + 1
  {
  }
}

=== FILE: text.dfy ===
/**
  The string primitives the command engine relies on: `startsWith`, `trim`
  and `toLowerCase`. JavaScript applies Unicode whitespace and case tables;
  this model restricts both to ASCII.
 */
module Text {

  /** A character `String.prototype.trim` removes (the ASCII subset). */
  predicate IsSpace(c: char) {
    c == ' ' || c == '\t' || c == '\n' || c == '\r' || c == '\U{0B}' || c == '\U{0C}'
  }

  /** Every character of `s` is whitespace. */
  predicate AllSpace(s: string) {
    forall i :: 0 <= i < |s| ==> IsSpace(s[i])
  }

  /** `s.startsWith(prefix)`. */
  predicate StartsWith(s: string, prefix: string) {
    prefix <= s
  }

  /** Neither end of `s` is whitespace. */
  predicate IsTrimmed(s: string) {
    s == [] || (!IsSpace(s[0]) && !IsSpace(s[|s| - 1]))
  }

  /** `s` with its leading whitespace removed. */
  function TrimStart(s: string): (r: string)
    ensures |r| <= |s| && r == s[|s| - |r|..]
    ensures AllSpace(s[..|s| - |r|])
    ensures r == [] || !IsSpace(r[0])
  {
    if |s| > 0 && IsSpace(s[0]) then
      var r := TrimStart(s[1..]);
      assert s[..|s| - |r|] == [s[0]] + s[1..][..|s| - 1 - |r|];
      r
    else s
  }

  /** `s` with its trailing whitespace removed. */
  function TrimEnd(s: string): (r: string)
    ensures |r| <= |s| && r == s[..|r|]
    ensures AllSpace(s[|r|..])
    ensures r == [] || !IsSpace(r[|r| - 1])
  {
    if |s| > 0 && IsSpace(s[|s| - 1]) then
      var r := TrimEnd(s[..|s| - 1]);
      assert s[|r|..] == s[..|s| - 1][|r|..] + [s[|s| - 1]];
      r
    else s
  }

  /** `s.trim()`. */
  function Trim(s: string): (r: string)
    ensures IsTrimmed(r)
    ensures |r| <= |s|
    ensures r == [] <==> AllSpace(s)
  {
    var t := TrimStart(s);
    assert AllSpace(s) ==> t == [];
    assert t == [] ==> AllSpace(s) by {
      if t == [] {
        assert s[..|s| - |t|] == s;
      }
    }
    TrimEnd(t)
  }

  /** Trim removes exactly the whitespace around a trimmed core. */
  lemma {:induction false} TrimSurrounded(lead: string, core: string, trail: string)
    requires AllSpace(lead) && AllSpace(trail) && IsTrimmed(core)
    ensures Trim(lead + core + trail) == core
  {
    var s := lead + core + trail;
    if core == [] {
      assert s == lead + trail;
      AllSpaceAppend(lead, trail);
    } else {
      assert s == lead + (core + trail);
      TrimStartDrops(lead, core + trail);
      assert TrimStart(s) == core + trail;
      TrimEndDrops(core, trail);
    }
  }

  lemma AllSpaceAppend(a: string, b: string)
    requires AllSpace(a) && AllSpace(b)
    ensures AllSpace(a + b)
  {
    var s := a + b;
    forall i | 0 <= i < |s|
      ensures IsSpace(s[i])
    {
      if i < |a| { assert s[i] == a[i]; } else { assert s[i] == b[i - |a|]; }
    }
  }

  lemma {:induction false} TrimStartDrops(lead: string, rest: string)
    requires AllSpace(lead)
    requires rest == [] || !IsSpace(rest[0])
    ensures TrimStart(lead + rest) == rest
    decreases |lead|
  {
    if lead == [] {
      assert lead + rest == rest;
    } else {
      assert (lead + rest)[1..] == lead[1..] + rest;
      TrimStartDrops(lead[1..], rest);
    }
  }

  lemma {:induction false} TrimEndDrops(core: string, trail: string)
    requires AllSpace(trail)
    requires core == [] || !IsSpace(core[|core| - 1])
    ensures TrimEnd(core + trail) == core
    decreases |trail|
  {
    if trail == [] {
      assert core + trail == core;
    } else {
      var s := core + trail;
      assert s[..|s| - 1] == core + trail[..|trail| - 1];
      TrimEndDrops(core, trail[..|trail| - 1]);
    }
  }

  /** A trimmed string is its own trim; in particular trim is idempotent. */
  lemma TrimOfTrimmed(s: string)
    requires IsTrimmed(s)
    ensures Trim(s) == s
  {
    TrimSurrounded([], s, []);
    assert [] + s + [] == s;
  }

  lemma TrimIdempotent(s: string)
    ensures Trim(Trim(s)) == Trim(s)
  {
    TrimOfTrimmed(Trim(s));
  }

  /** `c.toLowerCase()` for ASCII letters. */
  function LowerChar(c: char): (r: char)
    ensures !('A' <= r <= 'Z')
    ensures IsSpace(r) <==> IsSpace(c)
  {
    if 'A' <= c <= 'Z' then (c as int + 32) as char else c
  }

  /** No ASCII capital letter occurs in `s`. */
  predicate IsLower(s: string) {
    forall i :: 0 <= i < |s| ==> LowerChar(s[i]) == s[i]
  }

  /** `s.toLowerCase()`, character by character. */
  function ToLower(s: string): (r: string)
    ensures |r| == |s|
    ensures IsLower(r)
    ensures forall i :: 0 <= i < |s| ==> r[i] == LowerChar(s[i])
  {
    seq(|s|, i requires 0 <= i < |s| => LowerChar(s[i]))
  }

  lemma ToLowerOfLower(s: string)
    requires IsLower(s)
    ensures ToLower(s) == s
  {
  }

  lemma ToLowerAppend(a: string, b: string)
    ensures ToLower(a + b) == ToLower(a) + ToLower(b)
  {
  }

  /** Lower-casing commutes with taking a prefix. */
  lemma LowerPrefix(s: string, n: nat)
    ensures n <= |s| ==> ToLower(s)[..n] == ToLower(s[..n])
  {
  }

  /** The normalisation a recognised transcript undergoes: trim, then lowercase. */
  function Normalise(s: string): (r: string)
    ensures IsTrimmed(r) && IsLower(r)
    ensures |r| <= |s|
  {
    var t := Trim(s);
    LowerKeepsTrimmed(t);
    ToLower(t)
  }

  /** Normalising a trimmed core between blanks lower-cases the core, so
      "  Navigate To Example.com " becomes "navigate to example.com". */
  lemma NormaliseSurrounded(lead: string, core: string, trail: string)
    requires AllSpace(lead) && AllSpace(trail) && IsTrimmed(core)
    ensures Normalise(lead + core + trail) == ToLower(core)
  {
    TrimSurrounded(lead, core, trail);
  }

  /** Lower-casing never turns a blank into a non-blank or back. */
  lemma LowerKeepsTrimmed(s: string)
    requires IsTrimmed(s)
    ensures IsTrimmed(ToLower(s))
  {
    var r := ToLower(s);
    if s != [] {
      assert r[0] == LowerChar(s[0]);
      assert r[|r| - 1] == LowerChar(s[|s| - 1]);
    }
  }

  lemma NormaliseIdempotent(s: string)
    ensures Normalise(Normalise(s)) == Normalise(s)
  {
    var n := Normalise(s);
    TrimOfTrimmed(n);
    ToLowerOfLower(n);
  }

  /** A trimmed lower-case string is a fixed point of normalisation. */
  lemma NormaliseFixed(s: string)
    requires IsTrimmed(s) && IsLower(s)
    ensures Normalise(s) == s
  {
    TrimOfTrimmed(s);
    ToLowerOfLower(s);
  }
}

=== FILE: types.dfy ===
/** The shared vocabulary: the command table, the `VoiceEvents` union and the
    configuration record. */
module Types {
  import opened Wrappers
  import opened Text

  /** The command table, in declaration order. */
  const VoiceCommands: seq<string> := [
    "click on",
    "navigate to",
    "back",
    "forward",
    "fill out",
    "clear",
    "scroll up",
    "scroll down",
    "refresh page",
    "up",
    "down",
    "focus on"
  ]

  /** Membership in the `VoiceEvents` string-literal union. */
  predicate IsVoiceEvent(s: string) {
    || s == "click on"
    || s == "navigate to"
    || s == "back"
    || s == "forward"
    || s == "fill out"
    || s == "clear"
    || s == "scroll up"
    || s == "scroll down"
    || s == "refresh page"
    || s == "up"
    || s == "down"
    || s == "focus on"
  }

  /** No table entry is a prefix of a different entry. */
  predicate PrefixFree(table: seq<string>) {
    forall i, j :: 0 <= i < |table| && 0 <= j < |table| && i != j ==> !StartsWith(table[j], table[i])
  }

  /** The union and the table name the same strings. */
  lemma VoiceEventsMatchTable(s: string)
    ensures IsVoiceEvent(s) <==> s in VoiceCommands
  {
  }

  lemma TablePrefixFree()
    ensures PrefixFree(VoiceCommands)
  {
    var t := VoiceCommands;
    forall i, j | 0 <= i < |t| && 0 <= j < |t| && i != j
      ensures !StartsWith(t[j], t[i])
    {
      EntryDiffers(i, j);
    }
  }

  /** Two distinct entries part ways at some position, or the first is longer. */
  lemma EntryDiffers(i: nat, j: nat)
    requires i < |VoiceCommands| && j < |VoiceCommands| && i != j
    ensures !StartsWith(VoiceCommands[j], VoiceCommands[i])
  {
    var a, b := VoiceCommands[i], VoiceCommands[j];
    if |a| <= |b| {
      var k := FirstDifference(a, b);
      assert a[k] != b[k];
      assert b[..|a|][k] == b[k];
    }
  }

  /** A position where `a` and the same-length start of `b` differ, found by
      hand for each pair of entries. */
  function FirstDifference(a: string, b: string): (k: nat)
    requires a in VoiceCommands && b in VoiceCommands && a != b && |a| <= |b|
    ensures k < |a| && a[k] != b[k]
  {
    if a[0] != b[0] then 0
    else if a[1] != b[1] then 1
    else if a[2] != b[2] then 2
    else 7
  }

  /** The table has exactly twelve pairwise-distinct entries. */
  lemma TableDistinct()
    ensures |VoiceCommands| == 12
    ensures forall i, j :: 0 <= i < j < |VoiceCommands| ==> VoiceCommands[i] != VoiceCommands[j]
  {
    TablePrefixFree();
    forall i, j | 0 <= i < j < |VoiceCommands|
      ensures VoiceCommands[i] != VoiceCommands[j]
    {
      assert !StartsWith(VoiceCommands[j], VoiceCommands[i]);
    }
  }

  /** Every entry is lower-case with no surrounding whitespace, so it is left
      intact by the transcript normalisation. */
  lemma TableNormalised()
    ensures forall i :: 0 <= i < |VoiceCommands| ==> IsTrimmed(VoiceCommands[i]) && IsLower(VoiceCommands[i])
    ensures forall i :: 0 <= i < |VoiceCommands| ==> Normalise(VoiceCommands[i]) == VoiceCommands[i]
  {
    forall i | 0 <= i < |VoiceCommands|
      ensures IsTrimmed(VoiceCommands[i]) && IsLower(VoiceCommands[i])
      ensures Normalise(VoiceCommands[i]) == VoiceCommands[i]
    {
      NormaliseFixed(VoiceCommands[i]);
    }
  }

  /** `VoiceRecognitionConfig`: every field optional. */
  datatype Config = Config(
    scrollAmount: Option<int>,
    language: Option<string>,
    continuous: Option<bool>,
    interimResults: Option<bool>,
    grammar: Option<string>,
    autoStart: Option<bool>)


  /** The built-in grammar handed to the engine when none is configured. */
  const BuiltinGrammar: string :=
    "#JSGF V1.0; grammar commands; public <command> = click on | focus | navigate to | back | forward | fill out | clear | scroll down | scroll up | refresh ;"
}

=== FILE: wrappers.dfy ===
/** Failure-carrying datatypes used across the model. */
module Wrappers {

  /** A value that may be absent: JavaScript's `undefined` / `null`. */
  datatype Option<+T> = None | Some(value: T) {

    /** The carried value, or `default` when absent (JavaScript's `??`). */
    function GetOr(default: T): (v: T) {
      match this
      case Some(v) => v
      case None => default
    }
  }

  /** The outcome of an operation that may throw. */
  datatype Result<+R, +E> = Success(value: R) | Failure(error: E)
}
